=== FILE: README.md ===
# Cloud ledger rules (contabilidad-web), modelled in Dafny

The application is a small personal ledger kept in a spreadsheet. Entries
come from a sidebar form or from an uploaded CSV file; a dashboard shows the
balance, income and expenses, and a planning view totals the entries marked
as fixed expenses. This project models the ledger rules inside that code as
pure functions over immutable data, with every amount an exact number of
cents:

- **Manual entry** (`Entry`): the form is refused unless the amount is
  positive; the stored amount is negative for the type label `Gasto` and
  positive for any other label; the fixed checkbox is stored as the text
  `SÍ` or `NO`; the saved row has the six ledger columns in order.
- **Schema completion on load** (`Frames`): each of the six columns
  `Fecha, Tipo, Categoria, Descripcion, Monto, Es_Fijo` missing from the
  loaded table is added, filled with empty text.
- **Dashboard figures** (`Dashboard`): amounts are read as numbers, with
  anything non-numeric counted as 0 (`Cells.AmountOf`); balance, income
  (positive amounts) and expenses (negative amounts); the fixed-expense
  total over rows whose `Es_Fijo` is exactly `SÍ` and whose amount is
  negative.
- **CSV import** (`CsvImport`): header names are stripped of surrounding
  whitespace (`Strings`); the batch is refused unless all six required
  columns are present; dates go through a converter that may fail for the
  whole batch; each row is reduced to the six required cells in order.
- **Cells** (`Cells`): a cell is a number or text; decimal text is read as
  cents, and an amount written with two decimals, as the metrics show it
  (without the ` €` suffix), reads back as the same amount.

Files: `wrappers.dfy` (Option/Result), `cells.dfy`, `strings.dfy`,
`frames.dfy`, `dashboard.dfy`, `entry.dfy`, `csvimport.dfy`.

The code has no locale-aware amount parser, no recurrence detection across
months and no deduplication of fixed expenses. Its fixed flag is whatever the
user ticked, or whatever text the imported CSV carries in `Es_Fijo` (so `SI`
without the accent is never fixed), and its fixed total adds every selected row. Its error for
missing columns lists the required columns, not the ones found. Zero-amount
rows stay in the table; they add nothing to any sum.

## Model

| member | source | states |
|---|---|---|
| `Cells.ParseCents` | app.py.py:93 | empty text, and text holding any character other than a digit, a sign or a point, is not a number |
| `Cells.UnsignedRoundTrip` | app.py.py:100-102 | whole units, a point and two digits read back as the same number of cents |
| `Cells.SignedParse` | app.py.py:93 | a leading minus negates the value of unsigned decimal text, and unsigned text, alone or after a plus, reads as its own value |
| `Cells.NatDigits` | app.py.py:100-102 | the whole units are written as digits with that value and no leading zero |
| `Cells.FormatCents` | app.py.py:100-102 | the text ends in a point and two digits, starts with a minus exactly when the amount is negative, and its whole units have no leading zero |
| `Cells.FormatParseRoundTrip` | app.py.py:100-102 | an amount written with two decimals, as the metrics show it, reads back as the same amount |
| `Cells.AmountOf` | app.py.py:93 | a number cell is its own amount; empty text, or text holding a character other than a digit, a sign or a point, counts as 0; text of digits alone counts as that many whole units; DecimalAmount gives the value of every other accepted text |
| `Cells.WholeUnitsParse` | app.py.py:93 | text made of digits alone reads as that many whole units |
| `Cells.FractionParse` | app.py.py:93 | whole units, a point and at most two digits read as the units plus the decimals padded with zeros to two places, so a trailing point or one decimal is read too |
| `Cells.SignedAmountOf` | app.py.py:93 | a minus in front of decimal text negates the amount it stands for; a plus or no sign keeps it |
| `Cells.DecimalAmount` | app.py.py:93 | every accepted text (optional sign, digits, optionally a point and up to two decimals) counts as its signed decimal value |
| `Cells.DecimalExamples` | app.py.py:93 | `+5` counts as 5.00, `12.5` as 12.50 and `-3.` as -3.00 |
| `Strings.Strip` | app.py:18 | neither end of the stripped name is whitespace, and it is no longer than the original |
| `Strings.StripSlice` | app.py:18 | the stripped name is a contiguous part of the original, and everything before and after it is whitespace |
| `Strings.StripIdempotent` | app.py:18 | stripping a stripped name changes nothing |
| `Strings.StripPadded` | app.py:18 | any name padded with whitespace on either side strips back to that name |
| `Strings.StripMontoExample` | app.py:18 | the header `" Monto "` matches the column `Monto` |
| `Frames.AddColumn` | app.py.py:43 | adding a column puts it last, fills it with empty text in every row and keeps every other cell |
| `Frames.LoadData` | app.py.py:35-44 | after loading, all six columns exist; the existing columns keep their order and every cell; only expected columns are added and each added cell is empty text; the row count is unchanged |
| `Frames.ReadBack` | app.py.py:52-53 | a saved six-value row is read back with its i-th value under the i-th ledger column and no other column |
| `Frames.ReadBackAsText` | app.py.py:92-93 | when the sheet hands the saved amount back as two-decimal text, every other cell is as saved and the amount still reads as the saved number |
| `Dashboard.Amounts` | app.py.py:93 | the converted amount column has one amount per row, each the amount its `Monto` cell stands for |
| `Dashboard.Balance` | app.py.py:95 | the balance is income plus expenses, and 0 for no rows; with AppendRowTotals it is the sum of the amounts |
| `Dashboard.Income` | app.py.py:96 | income is never negative, and 0 for no rows; with AppendRowTotals it is the sum of the positive amounts |
| `Dashboard.Expenses` | app.py.py:97 | expenses are never positive, and 0 for no rows; with AppendRowTotals it is the sum of the negative amounts |
| `Dashboard.PositivesNonNegative` | app.py.py:96 | a sum of the positive amounts is never negative |
| `Dashboard.NegativesNonPositive` | app.py.py:97 | a sum of the negative amounts is never positive |
| `Dashboard.SplitBySign` | app.py.py:95-97 | the sum of all amounts equals income plus expenses |
| `Dashboard.Summarize` | app.py.py:91-102 | the dashboard shows metrics exactly when the table has rows and an amount column; then they are the balance, income and expenses of the rows, income at least 0, expenses at most 0 and balance equal to income plus expenses |
| `Dashboard.AppendRowTotals` | app.py.py:93-97 | one more row moves the balance by its amount and income or expenses by it according to its sign |
| `Dashboard.NonNumericRowCountsNowhere` | app.py.py:93-97 | a row whose amount is not a number changes neither balance nor income nor expenses |
| `Dashboard.IsFixedExpense` | app.py.py:121 | a selected row has a negative amount, and a row not marked `SÍ` is never selected |
| `Dashboard.FixedAmounts` | app.py.py:121 | the filter keeps only negative amounts, no more than there are rows, and selects nothing exactly when no row is marked `SÍ` with a negative amount |
| `Dashboard.FixedAmountsCells` | app.py.py:121 | the amount of every selected row is kept, and every kept amount is the amount of some selected row |
| `Dashboard.FixedAmountsSingle` | app.py.py:121 | a one-row table keeps that row's amount exactly when the filter selects it, and nothing otherwise |
| `Dashboard.FixedAmountsAppend` | app.py.py:121 | filtering two joined tables keeps the first's amounts followed by the second's, so each selected row contributes its amount exactly once, in row order |
| `Dashboard.FixedTotal` | app.py.py:123 | the fixed total is at most 0, and below 0 exactly when some row is a fixed expense |
| `Dashboard.NegativeTotal` | app.py.py:123 | a sum of negative amounts is at most 0, and below 0 when there is at least one |
| `Dashboard.FixedWithinExpenses` | app.py.py:121-123 | the fixed total lies between all expenses and 0 |
| `Dashboard.AppendRowFixedTotal` | app.py.py:121-123 | one more row adds its amount to the fixed total exactly when the filter selects it |
| `Dashboard.FixedSummary` | app.py.py:119-127 | the planning view shows a total exactly when some row is a fixed expense; that total is the fixed total, negative and no smaller than all expenses |
| `Entry.SignedAmount` | app.py.py:73 | the stored amount is negative exactly when the label is `Gasto`, and its magnitude is the entered amount |
| `Entry.FlagText` | app.py.py:50 | the flag text is `SÍ` or `NO`, and equals `SÍ` exactly when the box is ticked |
| `Entry.Submit` | app.py.py:71-82 | the form is refused with the amount message exactly when the amount is not positive; otherwise the row holds date, type, category and description as given, the signed amount and the flag text |
| `Entry.SavedEntryFixedIff` | app.py.py:121 | a saved entry, read back, is selected by the fixed filter exactly when it is a `Gasto` with the box ticked |
| `Entry.SavedEntryFixedTotal` | app.py.py:121-123 | saving an entry lowers the fixed total by its amount when it is a ticked `Gasto` and leaves it unchanged otherwise |
| `Entry.SavedEntryTotals` | app.py.py:72-73 | saving an entry raises income by its amount, or lowers expenses by it when the label is `Gasto` |
| `Entry.SavedEntryTextFixedIff` | app.py.py:92-121 | a saved entry whose amount comes back as two-decimal text is selected by the fixed filter exactly when it is a `Gasto` with the box ticked |
| `Entry.SavedEntryTextTotals` | app.py.py:92-123 | an entry whose amount comes back as two-decimal text moves balance, income, expenses and the fixed total exactly as one that comes back as a number |
| `Entry.CommaAmountIgnored` | app.py.py:92-121 | an amount handed back as `-12,50` counts as 0, so a ticked expense written that way is not a fixed expense |
| `CsvImport.StripAllIdempotent` | app.py:18 | stripping the header a second time changes nothing |
| `CsvImport.StripAllPadded` | app.py:18 | a header of clean names padded with whitespace strips to the clean names, so it passes the presence check exactly when they do |
| `CsvImport.Count` | app.py:20 | a name occurs zero times exactly when it is absent |
| `CsvImport.CountDistinct` | app.py:20 | in a header of distinct names a name occurs once if present and never otherwise |
| `CsvImport.IndexOf` | app.py:27 | the position found holds the name and no earlier position does |
| `CsvImport.ReformatDates` | app.py:24 | the conversion fails exactly when some row's date does not convert; otherwise only the date cell of each row changes, to its converted value |
| `CsvImport.ColumnIsUnique` | app.py:27 | with each required name present once, the column found for it is the only column of that name |
| `CsvImport.Convert` | app.py:24-27 | it fails exactly when a date does not convert; otherwise one six-cell row per input row, the converted date first and each other cell from its column |
| `CsvImport.Import` | app.py:13-35 | a batch is refused with the missing-columns error exactly when some required name is absent after stripping; it is accepted exactly when all are present once and every date converts; then one six-cell row per input row, the converted date first and each other field, `Es_Fijo` included, copied from its column |
| `CsvImport.ImportInto` | app.py:27-31 | with the corrected import, an accepted batch appends exactly the rows it produced, one six-cell row per input row, after the existing ones; a refused one appends nothing |
| `CsvImport.ImportIntoAsWritten` | app.py:27-31 | as written, an accepted batch appends exactly the rows the code selects, wider ones included, after the existing ones; a refused one appends nothing |
| `CsvImport.ImportIntoAgrees` | app.py:27-31 | when no required name repeats, the upload as written and the corrected upload leave the same ledger |
| `CsvImport.MatchingCount` | app.py:27 | selecting a name yields as many cells as columns have that name |
| `CsvImport.MatchingAppend` | app.py:27 | the cells selected from two joined groups of columns are those of the first group followed by those of the second, so cells come out in column order |
| `CsvImport.MatchingSingle` | app.py:27 | a name that labels one column selects exactly the cell of that column |
| `CsvImport.SelectAllWidth` | app.py:27 | selecting names the header holds yields at least one cell per name |
| `CsvImport.SelectAllWider` | app.py:27 | when one selected name labels two columns, the selection yields more cells than there are names |
| `CsvImport.SelectAllSingles` | app.py:27 | names that each label one column select one cell apiece, the cell of that column, in the order of the names |
| `CsvImport.CountTwice` | app.py:27 | a name counted twice sits at two different positions |
| `CsvImport.UniqueCountsOnce` | app.py:20-27 | when no required name repeats, each required name labels exactly one column |
| `CsvImport.SelectAllProjects` | app.py:27 | when no required name repeats, `df[columnas_necesarias]` is the projection onto the six required columns |
| `CsvImport.ConvertAsWritten` | app.py:24-27 | as written, the conversion fails exactly when some date does not convert, and otherwise gives one row per input row |
| `CsvImport.ConvertAsWrittenWidth` | app.py:24-27 | as written, a required name that labels two columns makes every converted row longer than six cells |
| `CsvImport.ConvertAgrees` | app.py:24-27 | when no required name repeats, the conversion as written equals the corrected one, row by row and cell by cell |
| `CsvImport.ImportAsWritten` | app.py:13-35 | as written, a batch is refused with the missing-columns error exactly when some required name is absent after stripping, and accepted exactly when all are present, the date column is single and every date converts; an accepted batch has one output row per input row |
| `CsvImport.AsWrittenAgrees` | app.py:13-35 | on every batch whose stripped header repeats no required name, the import as written and the corrected import give the same result |
| `CsvImport.SharedNameWidensRows` | app.py:18-27 | as written, a required name shared by two stripped headers makes every imported row longer than six cells |
| `CsvImport.DuplicateRefused` | app.py:20-27 | the corrected import refuses a header in which two columns carry the same required name, reporting the stripped header |
| `CsvImport.MontoTwiceCounts` | app.py:20 | the six names followed by `Monto` again hold every required name, `Monto` twice and the date once |
| `CsvImport.StripPaddedHeader` | app.py:18 | the header of the six names and ` Monto` strips to the six names and `Monto` |
| `CsvImport.PaddedDuplicateExample` | app.py:18-27 | for the header `Fecha,Tipo,Categoria,Descripcion,Monto,Es_Fijo, Monto`, the code as written accepts rows of more than six cells, while the corrected import refuses the batch |

## Left out

- Spreadsheet access (authentication, `get_all_records`, `append_row`, `append_rows`) is network I/O. The table that is loaded is an input, and a saved or imported row is an output. A failing save (the error message after `append_row`) is not modelled.
- The Streamlit widgets, messages, reruns and tabs are UI, and so are the line chart and the raw-data tab. Only the conditions that decide what each view shows are modelled.
- CSV decoding, the UTF-8/Latin-1 fallback and pandas' type inference are library code that cannot be seen. A batch arrives already decoded, with one cell per header entry.
- Date handling is library code that cannot be seen. The form's date arrives as text. The import's `to_datetime`/`strftime` step is the parameter `toIso`, and one failing date fails the whole batch.
- Floating point is not modelled: every amount is an integer number of cents, matching the form's two decimals.
- Cells.ParseCents: weaker than `pd.to_numeric`. Exponents, a leading point, more than two decimals, surrounding whitespace and `inf`/`nan` spellings all count as not a number here, and so read as 0.
- Frames.LoadData: the order in which missing columns are appended (the order of the six names) is not stated; only which columns are added.
- Frames.LoadData: building the table from the sheet's records is not modelled. The function takes the table pandas builds, with distinct column names and every row holding every column.
- Dashboard.FixedSummary: requires the amount column, which the code reads without checking. `load_data` always provides it.
- CsvImport.ImportAsWritten: a repeated date column is refused as a processing error. That relies on pandas raising when it converts a table instead of a single column.
- Frames.ReadBack: assumes the sheet's first row is the six-name header, which is what `get_all_records` reads as column names. On an empty sheet `append_row` would write the entry as row 1 and the next load would read it as the header; that case is not modelled, and the saved-entry lemmas hold only with the header in place.
- Frames.ReadBack: assumes the saved amount comes back as the saved number. When the sheet hands it back as text, ReadBackAsText covers two-decimal text with a point; text written another way, such as with a decimal comma, reads as 0 (CommaAmountIgnored), and then the saved-entry lemmas do not hold.
- Dashboard.FixedAmounts: its own contract states neither the order of the kept amounts nor how often each appears; FixedAmountsSingle and FixedAmountsAppend fix both, row by row.
- CsvImport.Matching: it carries no contract of its own; MatchingCount, MatchingAppend and MatchingSingle state what it selects.
- CsvImport.SelectAll: `df_upload[columnas_necesarias]` for one row carries no contract of its own; SelectAllSingles, SelectAllWidth, SelectAllWider and SelectAllProjects state what it selects.
- CsvImport.ConvertAsWritten: its cells are stated only through ConvertAgrees (no repeated required name) and the width lemmas (a repeated one); the exact layout of a widened row is not stated.
- `read_csv` renames exact repeats of a header name (a second `Monto` becomes `Monto.1`); a batch's header is the header after that renaming, so only names that differ before stripping can collide.

## Findings

| source | as written | input that shows it | evidently intended | confidence | as-written member | corrected member |
|---|---|---|---|---|---|---|
| app.py:18-27 | header names are stripped before the presence check, but two names that strip to the same required column are both kept, and `df_upload[columnas_necesarias]` then selects both columns, so each imported row gets seven cells in the order Fecha, Tipo, Categoria, Descripcion, Monto, the second Monto, Es_Fijo: the second amount lands under the sheet's Es_Fijo column and the Es_Fijo text in a seventh column, so those rows never reach the fixed filter | a CSV whose header is `Fecha,Tipo,Categoria,Descripcion,Monto,Es_Fijo, Monto` | every imported row holds exactly the six ledger fields | not executed; medium (relies on pandas selecting every column that carries a repeated label) | `CsvImport.PaddedDuplicateExample` | `CsvImport.Import`, `CsvImport.ImportInto` |

=== FILE: cells.dfy ===
/**
 * Spreadsheet cells and the money amounts they hold.
 *
 * Every amount is an exact number of cents. A cell is either a number (an
 * amount in cents) or text. Reading a cell as an amount follows
 * `pd.to_numeric(..., errors='coerce').fillna(0)`: text that reads as a
 * decimal number becomes that amount, anything else becomes 0.
 */
module Cells {
  import opened Wrappers

  datatype Cell = Num(n: int) | Text(s: string)

  predicate IsDigit(c: char) { '0' <= c <= '9' }

  predicate AllDigits(s: string) { forall i :: 0 <= i < |s| ==> IsDigit(s[i]) }

  function DigitValue(c: char): (d: nat)
    requires IsDigit(c)
    ensures d < 10
  {
    (c as int - '0' as int) as nat
  }

  function DigitChar(d: nat): (c: char)
    requires d < 10
    ensures IsDigit(c) && DigitValue(c) == d
  {
    ('0' as int + d) as char
  }

  /** The value of a string of decimal digits, most significant first. */
  function DigitsValue(s: string): nat
    requires AllDigits(s)
  {
    if |s| == 0 then 0 else DigitsValue(s[..|s| - 1]) * 10 + DigitValue(s[|s| - 1])
  }

  /** The shortest decimal spelling of `n`. */
  function NatDigits(n: nat): (r: string)
    ensures |r| > 0 && AllDigits(r)
    ensures DigitsValue(r) == n
    ensures |r| == 1 || r[0] != '0'
  {
    if n < 10 then [DigitChar(n)]
    else
      var init := NatDigits(n / 10);
      var r := init + [DigitChar(n % 10)];
      assert r[..|r| - 1] == init;
      r
  }

  /** Index of the first '.' in `s`, or |s| when there is none. */
  function IndexOfDot(s: string): (k: nat)
    ensures k <= |s|
    ensures forall i :: 0 <= i < k ==> s[i] != '.'
    ensures k < |s| ==> s[k] == '.'
  {
    if |s| == 0 || s[0] == '.' then 0 else 1 + IndexOfDot(s[1..])
  }

  /** Unsigned decimal text: digits, optionally a point and at most two more digits. */
  function ParseUnsignedCents(s: string): (r: Option<nat>)
    ensures r.Some? ==> |s| > 0 && IsDigit(s[0])
  {
    var k := IndexOfDot(s);
    var whole := s[..k];
    if |whole| == 0 || !AllDigits(whole) then None
    else if k == |s| then Some(DigitsValue(whole) * 100)
    else
      var frac := s[k + 1..];
      if |frac| > 2 || !AllDigits(frac) then None
      else if |frac| == 0 then Some(DigitsValue(whole) * 100)
      else if |frac| == 1 then Some(DigitsValue(whole) * 100 + DigitsValue(frac) * 10)
      else Some(DigitsValue(whole) * 100 + DigitsValue(frac))
  }

  /**
   * Reads decimal text as cents: an optional sign, then unsigned decimal text.
   * Returns None for text that is not such a number.
   */
  function ParseCents(s: string): (r: Option<int>)
    ensures |s| == 0 ==> r.None?
    ensures (exists i :: 0 <= i < |s| && !IsDigit(s[i]) && s[i] !in "+-.") ==> r.None?
  {
    if |s| > 0 && (s[0] == '-' || s[0] == '+') then
      match ParseUnsignedCents(s[1..])
      case None => None
      case Some(v) => var n: int := v; Some(if s[0] == '-' then -n else n)
    else
      match ParseUnsignedCents(s)
      case None => None
      case Some(v) => Some(v)
  }

  /** Two decimal places, as in the `:.2f` format of the dashboard metrics. */
  function FormatCents(c: int): (r: string)
    ensures |r| >= 4 && r[|r| - 3] == '.' && IsDigit(r[|r| - 2]) && IsDigit(r[|r| - 1])
    ensures r[0] == '-' <==> c < 0
    ensures c >= 0 ==> r[0] != '0' || r[1] == '.'
    ensures c < 0 ==> r[1] != '0' || r[2] == '.'
  {
    (if c < 0 then "-" else "") + FormatUnsigned(if c < 0 then -c else c)
  }

  /** A non-negative amount of cents as whole units, a point and two digits. */
  function FormatUnsigned(a: nat): (r: string)
    ensures |r| >= 4
    ensures r[0] != '0' || r[1] == '.'
  {
    var m := a % 100;
    NatDigits(a / 100) + "." + [DigitChar(m / 10), DigitChar(m % 10)]
  }

  /**
   * The amount a cell stands for: numbers as they are, numeric text read,
   * everything else 0. FormatParseRoundTrip gives the value of two-decimal text.
   */
  function AmountOf(c: Cell): (r: int)
    ensures c.Num? ==> r == c.n
    ensures c.Text? && (|c.s| == 0 || exists i :: 0 <= i < |c.s| && !IsDigit(c.s[i]) && c.s[i] !in "+-.") ==> r == 0
    ensures c.Text? && |c.s| > 0 && AllDigits(c.s) ==> r == DigitsValue(c.s) * 100
  {
    match c
    case Num(n) => n
    case Text(t) =>
      WholeUnitsParse(t);
      match ParseCents(t)
      case Some(v) => v
      case None => 0
  }

  /** Text made of digits alone reads as that many whole units. */
  lemma WholeUnitsParse(s: string)
    ensures |s| > 0 && AllDigits(s) ==> ParseUnsignedCents(s) == Some(DigitsValue(s) * 100)
    ensures |s| > 0 && AllDigits(s) ==> ParseCents(s) == Some(DigitsValue(s) * 100)
  {
    if |s| > 0 && AllDigits(s) {
      var k := IndexOfDot(s);
      if k < |s| {
        assert false;
      }
      assert s[..k] == s;
      assert IsDigit(s[0]);
    }
  }

  lemma {:induction false} DotAfterDigits(d: string, t: string)
    requires AllDigits(d)
    ensures IndexOfDot(d + "." + t) == |d|
  {
    var s := d + "." + t;
    assert forall i :: 0 <= i < |d| ==> s[i] == d[i];
    assert s[|d|] == '.';
  }

  lemma {:induction false} UnsignedRoundTrip(a: nat)
    ensures ParseUnsignedCents(FormatUnsigned(a)) == Some(a)
  {
    var m := a % 100;
    var w := NatDigits(a / 100);
    var f := [DigitChar(m / 10), DigitChar(m % 10)];
    var s := w + "." + f;
    DotAfterDigits(w, f);
    assert s[..|w|] == w;
    assert s[|w| + 1..] == f;
    assert f[..1] == [DigitChar(m / 10)];
    assert f[..1][..0] == [];
    assert DigitsValue(f[..1]) == m / 10;
    assert DigitValue(f[1]) == m % 10;
    assert DigitsValue(f) == (m / 10) * 10 + m % 10;
  }

  /** A sign in front of unsigned decimal text negates or keeps its value. */
  lemma SignedParse(u: string, a: nat)
    requires ParseUnsignedCents(u) == Some(a)
    ensures ParseCents(u) == Some(a)
    ensures ParseCents("-" + u) == Some(-(a as int))
    ensures ParseCents("+" + u) == Some(a)
  {
    assert ("-" + u)[1..] == u;
    assert ("+" + u)[1..] == u;
  }

  /**
   * The cents that whole units `w` and decimals `f` stand for: the decimals
   * are read as if padded with zeros to two places.
   */
  function DecimalValue(w: string, f: string): nat
    requires AllDigits(w) && AllDigits(f) && |f| <= 2
  {
    var g := f + "00"[..2 - |f|];
    assert forall i :: 0 <= i < |g| ==> IsDigit(g[i]);
    DigitsValue(w) * 100 + DigitsValue(g)
  }

  /** Whole units, a point and at most two more digits read as their decimal value. */
  lemma {:induction false} FractionParse(w: string, f: string)
    requires |w| > 0 && AllDigits(w) && AllDigits(f) && |f| <= 2
    ensures ParseUnsignedCents(w + "." + f) == Some(DecimalValue(w, f))
  {
    var s := w + "." + f;
    var g := f + "00"[..2 - |f|];
    DotAfterDigits(w, f);
    assert s[..|w|] == w;
    assert s[|w| + 1..] == f;
    if |f| == 0 {
      assert g == "00";
      assert g[..1] == "0" && g[..1][..0] == [];
    } else if |f| == 1 {
      assert g[..1] == f && f[..0] == [];
      assert g[1] == '0';
    } else {
      assert g == f;
    }
  }

  /** The amount of signed unsigned-decimal text: a minus negates, a plus or no sign keeps the value. */
  lemma SignedAmountOf(sg: string, u: string, a: nat)
    requires sg == "" || sg == "+" || sg == "-"
    requires ParseUnsignedCents(u) == Some(a)
    ensures AmountOf(Text(sg + u)) == (if sg == "-" then -(a as int) else a)
  {
    SignedParse(u, a);
    if sg == "" {
      assert sg + u == u;
    }
  }

  /**
   * What the dashboard reads from accepted decimal text: an optional sign,
   * whole units and, after an optional point, at most two decimals.
   */
  lemma DecimalAmount(sg: string, w: string, f: string)
    requires sg == "" || sg == "+" || sg == "-"
    requires |w| > 0 && AllDigits(w) && AllDigits(f) && |f| <= 2
    ensures AmountOf(Text(sg + w)) == (if sg == "-" then -(DigitsValue(w) * 100) else DigitsValue(w) * 100)
    ensures AmountOf(Text(sg + (w + "." + f))) == (if sg == "-" then -(DecimalValue(w, f) as int) else DecimalValue(w, f))
  {
    var u := w + "." + f;
    FractionParse(w, f);
    WholeUnitsParse(w);
    SignedAmountOf(sg, w, DigitsValue(w) * 100);
    SignedAmountOf(sg, u, DecimalValue(w, f));
  }

  /** A plus sign, one decimal and a trailing point all read as their numbers. */
  lemma DecimalExamples()
    ensures AmountOf(Text("+5")) == 500
    ensures AmountOf(Text("12.5")) == 1250
    ensures AmountOf(Text("-3.")) == -300
  {
    PlusSignExample();
    OneDecimalExample();
    TrailingPointExample();
  }

  lemma PlusSignExample()
    ensures AmountOf(Text("+5")) == 500
  {
    DecimalAmount("+", "5", "");
    assert "+" + "5" == "+5";
  }

  lemma OneDecimalExample()
    ensures AmountOf(Text("12.5")) == 1250
  {
    DecimalAmount("", "12", "5");
    assert "" + ("12" + "." + "5") == "12.5";
    assert DigitsValue("12"[..1]) == 1;
    assert "5" + "00"[..1] == "50";
    assert DigitsValue("50"[..1]) == 5;
    assert DecimalValue("12", "5") == 1250;
  }

  lemma TrailingPointExample()
    ensures AmountOf(Text("-3.")) == -300
  {
    DecimalAmount("-", "3", "");
    assert "-" + ("3" + "." + "") == "-3.";
    assert DecimalValue("3", "") == 300;
  }

  /** Formatting an amount with two decimals and reading the text back gives the amount. */
  lemma {:induction false} FormatParseRoundTrip(c: int)
    ensures ParseCents(FormatCents(c)) == Some(c)
  {
    if c < 0 {
      var u := FormatUnsigned(-c);
      UnsignedRoundTrip(-c);
      SignedParse(u, -c);
      assert FormatCents(c) == "-" + u;
    } else {
      var u := FormatUnsigned(c);
      UnsignedRoundTrip(c);
      SignedParse(u, c);
      assert FormatCents(c) == u;
    }
  }
}

=== FILE: csvimport.dfy ===
/**
 * CSV import: the header check and the projection of each uploaded row onto
 * the ledger's columns.
 *
 * A batch is the decoded CSV: its header and its rows, each row holding one
 * cell per header entry. Header names are stripped of surrounding
 * whitespace; the batch is refused unless every required column is among
 * them; the date column is rewritten to ISO text by a converter that may
 * fail, in which case the whole batch fails; each row is then reduced to the
 * required columns, in the required order.
 */
module CsvImport {
  import opened Wrappers
  import opened Cells
  import opened Strings
  import opened Frames

  /** The columns an upload must have: the same six the ledger keeps. */
  const Required: seq<string> := Expected

  /** The date column, "Fecha", first among the required ones. */
  const DateColumn: string := Required[0]

  datatype Batch = Batch(header: seq<string>, rows: seq<seq<Cell>>)

  /** Every row has one cell per header entry, as a decoded CSV does. */
  predicate Rectangular(b: Batch)
  {
    forall k :: 0 <= k < |b.rows| ==> |b.rows[k]| == |b.header|
  }

  datatype ImportError =
    | MissingColumns                        // a required column is absent
    | DuplicateColumns(found: seq<string>)  // a required column is named twice after stripping
    | ProcessingError                       // the date conversion failed

  /** `df.columns.str.strip()`. */
  function StripAll(h: seq<string>): (r: seq<string>)
    ensures |r| == |h| && forall i :: 0 <= i < |h| ==> r[i] == Strip(h[i])
  {
    seq(|h|, i requires 0 <= i < |h| => Strip(h[i]))
  }

  /** Stripping the header a second time changes nothing. */
  lemma StripAllIdempotent(h: seq<string>)
    ensures StripAll(StripAll(h)) == StripAll(h)
  {
    forall i | 0 <= i < |h|
      ensures Strip(Strip(h[i])) == Strip(h[i])
    {
      StripIdempotent(h[i]);
    }
  }

  /**
   * A header whose names carry whitespace around clean names strips to the
   * clean names, so it passes the presence check exactly when they do.
   */
  lemma StripAllPadded(g: seq<string>, ps: seq<string>, h: seq<string>, qs: seq<string>)
    requires |g| == |ps| == |h| == |qs|
    requires forall i :: 0 <= i < |g| ==> g[i] == ps[i] + h[i] + qs[i]
    requires forall i :: 0 <= i < |g| ==> AllSpace(ps[i]) && AllSpace(qs[i]) && NoEdgeSpace(h[i])
    ensures StripAll(g) == h
    ensures HasAll(StripAll(g)) <==> HasAll(h)
  {
    forall i | 0 <= i < |g|
      ensures Strip(g[i]) == h[i]
    {
      StripPadded(ps[i], h[i], qs[i]);
    }
  }

  /** Every required column is present. */
  predicate HasAll(h: seq<string>)
  {
    forall j :: 0 <= j < |Required| ==> Required[j] in h
  }

  function Count(h: seq<string>, c: string): (n: nat)
    ensures n <= |h|
    ensures n == 0 <==> c !in h
  {
    if |h| == 0 then 0 else Count(h[..|h| - 1], c) + (if h[|h| - 1] == c then 1 else 0)
  }

  /** Position of the first column named `c`. */
  function IndexOf(h: seq<string>, c: string): (i: nat)
    requires c in h
    ensures i < |h| && h[i] == c
    ensures forall i' :: 0 <= i' < i ==> h[i'] != c
  {
    if h[0] == c then 0 else 1 + IndexOf(h[1..], c)
  }

  /**
   * `pd.to_datetime(df["Fecha"], dayfirst=True).dt.strftime("%Y-%m-%d")`:
   * the date cell of every row rewritten by `toIso`, or None when any date
   * cannot be converted.
   */
  function ReformatDates(rows: seq<seq<Cell>>, i: nat, toIso: Cell -> Option<Cell>): (r: Option<seq<seq<Cell>>>)
    requires forall k :: 0 <= k < |rows| ==> i < |rows[k]|
    ensures r.None? <==> exists k :: 0 <= k < |rows| && toIso(rows[k][i]).None?
    ensures r.Some? ==> |r.value| == |rows|
    ensures r.Some? ==> forall k :: 0 <= k < |rows| ==>
      && |r.value[k]| == |rows[k]|
      && Some(r.value[k][i]) == toIso(rows[k][i])
      && (forall i' :: 0 <= i' < |rows[k]| && i' != i ==> r.value[k][i'] == rows[k][i'])
  {
    if |rows| == 0 then Some([])
    else
      var init := rows[..|rows| - 1];
      var last := rows[|rows| - 1];
      assert forall k :: 0 <= k < |init| ==> init[k] == rows[k];
      match ReformatDates(init, i, toIso)
      case None => None
      case Some(done) =>
        match toIso(last[i])
        case None => None
        case Some(d) => Some(done + [last[i := d]])
  }

  /** No required column is named twice. */
  predicate UniqueRequired(h: seq<string>)
  {
    forall i, i' :: 0 <= i < i' < |h| && h[i] == h[i'] ==> h[i] !in Required
  }

  /** `df[columnas_necesarias]` for one row whose header names each required column once. */
  function Project(row: seq<Cell>, h: seq<string>): (r: seq<Cell>)
    requires |row| == |h| && HasAll(h)
    ensures |r| == |Required|
    ensures forall j :: 0 <= j < |Required| ==> r[j] == row[IndexOf(h, Required[j])]
  {
    seq(|Required|, j requires 0 <= j < |Required| => row[IndexOf(h, Required[j])])
  }

  /** With each required name present once, the first column of that name is the only one. */
  lemma ColumnIsUnique(h: seq<string>, j: nat, i: nat)
    requires HasAll(h) && UniqueRequired(h)
    requires j < |Required| && i < |h| && h[i] == Required[j]
    ensures i == IndexOf(h, Required[j])
  {
  }

  /** Every row of the batch reduced to the required cells. */
  function ProjectRows(rows: seq<seq<Cell>>, h: seq<string>): (out: seq<seq<Cell>>)
    requires HasAll(h) && forall k :: 0 <= k < |rows| ==> |rows[k]| == |h|
    ensures |out| == |rows|
    ensures forall k :: 0 <= k < |rows| ==> out[k] == Project(rows[k], h)
  {
    seq(|rows|, k requires 0 <= k < |rows| => Project(rows[k], h))
  }

  /** Every row's date converts. */
  predicate DatesConvert(src: seq<seq<Cell>>, h: seq<string>, toIso: Cell -> Option<Cell>)
    requires HasAll(h) && forall k :: 0 <= k < |src| ==> |src[k]| == |h|
  {
    forall k :: 0 <= k < |src| ==> toIso(src[k][IndexOf(h, DateColumn)]).Some?
  }

  /**
   * The accepted branch: dates converted, then every row reduced to the
   * converted date followed by the cell of each other required column.
   */
  function Convert(src: seq<seq<Cell>>, h: seq<string>, toIso: Cell -> Option<Cell>): (r: Option<seq<seq<Cell>>>)
    requires HasAll(h) && forall k :: 0 <= k < |src| ==> |src[k]| == |h|
    ensures r.None? <==> !DatesConvert(src, h, toIso)
    ensures r.Some? ==> |r.value| == |src|
    ensures r.Some? ==> forall k :: 0 <= k < |src| ==> |r.value[k]| == |Required|
    ensures r.Some? ==> forall k :: 0 <= k < |src| ==> Some(r.value[k][0]) == toIso(src[k][IndexOf(h, DateColumn)])
    ensures r.Some? ==> forall k, j :: 0 <= k < |src| && 0 < j < |Required| ==>
      r.value[k][j] == src[k][IndexOf(h, Required[j])]
  {
    match ReformatDates(src, IndexOf(h, DateColumn), toIso)
    case None => None
    case Some(rows) =>
      ExpectedDistinct();
      Some(ProjectRows(rows, h))
  }

  /**
   * The upload: stripped headers are checked, a required name present twice
   * is refused, dates are converted, and each row is reduced to the six
   * required cells, taken from the column of that name.
   */
  function Import(b: Batch, toIso: Cell -> Option<Cell>): (r: Result<seq<seq<Cell>>, ImportError>)
    requires Rectangular(b)
    ensures !HasAll(StripAll(b.header)) <==> r == Failure(MissingColumns)
    ensures var h := StripAll(b.header);
      r.Success? <==>
        && HasAll(h)
        && UniqueRequired(h)
        && DatesConvert(b.rows, h, toIso)
    ensures r.Success? ==> |r.value| == |b.rows|
    ensures r.Success? ==> forall k :: 0 <= k < |b.rows| ==> |r.value[k]| == |Required|
    ensures var h := StripAll(b.header);
      r.Success? ==> forall k :: 0 <= k < |b.rows| ==>
        Some(r.value[k][0]) == toIso(b.rows[k][IndexOf(h, DateColumn)])
    ensures var h := StripAll(b.header);
      r.Success? ==> forall k, j :: 0 <= k < |b.rows| && 0 < j < |Required| ==>
        r.value[k][j] == b.rows[k][IndexOf(h, Required[j])]
  {
    var h := StripAll(b.header);
    if !HasAll(h) then Failure(MissingColumns)
    else if !UniqueRequired(h) then Failure(DuplicateColumns(h))
    else
      match Convert(b.rows, h, toIso)
      case None => Failure(ProcessingError)
      case Some(out) => Success(out)
  }

  /**
   * The ledger after an upload with the corrected import: its rows are
   * appended after the existing ones; a refused batch appends nothing.
   * ImportIntoAsWritten is the upload as the code is written.
   */
  function ImportInto(ledger: seq<seq<Cell>>, b: Batch, toIso: Cell -> Option<Cell>): (r: seq<seq<Cell>>)
    requires Rectangular(b)
    ensures |ledger| <= |r| && r[..|ledger|] == ledger
    ensures |r| == |ledger| + (if Import(b, toIso).Success? then |b.rows| else 0)
    ensures forall k :: |ledger| <= k < |r| ==> |r[k]| == |Required|
    ensures Import(b, toIso).Success? ==> r[|ledger|..] == Import(b, toIso).value
  {
    match Import(b, toIso)
    case Success(rows) => ledger + rows
    case Failure(_) => ledger
  }

  // The import as the code is written. When two header names strip to the
  // same required name, selecting that name keeps both columns, so the rows
  // come out wider than the six ledger columns. A repeated date column makes
  // the date conversion fail instead.

  /** The cells of `row` in the columns named `c`, in column order. */
  function Matching(row: seq<Cell>, h: seq<string>, c: string): seq<Cell>
    requires |row| == |h|
  {
    if |h| == 0 then []
    else Matching(row[..|row| - 1], h[..|h| - 1], c) + (if h[|h| - 1] == c then [row[|row| - 1]] else [])
  }

  /** Selecting a name yields one cell per column of that name. */
  lemma {:induction false} MatchingCount(row: seq<Cell>, h: seq<string>, c: string)
    requires |row| == |h|
    ensures |Matching(row, h, c)| == Count(h, c)
  {
    if |h| > 0 {
      MatchingCount(row[..|row| - 1], h[..|h| - 1], c);
    }
  }

  /** `df[names]` for one row: for each name in turn, every column of that name. */
  function SelectAll(row: seq<Cell>, h: seq<string>, names: seq<string>): seq<Cell>
    requires |row| == |h|
  {
    if |names| == 0 then []
    else SelectAll(row, h, names[..|names| - 1]) + Matching(row, h, names[|names| - 1])
  }

  /** Matching distributes over joined columns: the cells of the first part, then those of the second. */
  lemma {:induction false} MatchingAppend(row1: seq<Cell>, h1: seq<string>, row2: seq<Cell>, h2: seq<string>, c: string)
    requires |row1| == |h1| && |row2| == |h2|
    ensures Matching(row1 + row2, h1 + h2, c) == Matching(row1, h1, c) + Matching(row2, h2, c)
  {
    if |h2| == 0 {
      assert row1 + row2 == row1 && h1 + h2 == h1;
    } else {
      var row2', h2' := row2[..|row2| - 1], h2[..|h2| - 1];
      var row, h := row1 + row2, h1 + h2;
      assert row[..|row| - 1] == row1 + row2' && h[..|h| - 1] == h1 + h2';
      assert h[|h| - 1] == h2[|h2| - 1] && row[|row| - 1] == row2[|row2| - 1];
      MatchingAppend(row1, h1, row2', h2', c);
      var m1, m2 := Matching(row1, h1, c), Matching(row2', h2', c);
      var t := if h2[|h2| - 1] == c then [row2[|row2| - 1]] else [];
      assert Matching(row2, h2, c) == m2 + t;
      assert Matching(row, h, c) == Matching(row1 + row2', h1 + h2', c) + t;
      assert (m1 + m2) + t == m1 + (m2 + t);
    }
  }

  /** A name that labels one column selects exactly the cell of that column. */
  lemma {:induction false} MatchingSingle(row: seq<Cell>, h: seq<string>, c: string)
    requires |row| == |h| && Count(h, c) == 1
    ensures Matching(row, h, c) == [row[IndexOf(h, c)]]
  {
    var row', h' := row[..|row| - 1], h[..|h| - 1];
    assert forall i :: 0 <= i < |h'| ==> h'[i] == h[i] && row'[i] == row[i];
    MatchingCount(row', h', c);
    if h[|h| - 1] == c {
      assert |Matching(row', h', c)| == 0;
      assert c !in h';
      assert IndexOf(h, c) == |h| - 1;
    } else {
      MatchingSingle(row', h', c);
      var i := IndexOf(h', c);
      assert h[i] == c;
      assert IndexOf(h, c) == i;
    }
  }

  /** Every selected name that the header holds gives at least one cell. */
  lemma {:induction false} SelectAllWidth(row: seq<Cell>, h: seq<string>, names: seq<string>)
    requires |row| == |h|
    requires forall j :: 0 <= j < |names| ==> names[j] in h
    ensures |SelectAll(row, h, names)| >= |names|
  {
    if |names| > 0 {
      var init := names[..|names| - 1];
      assert forall j :: 0 <= j < |init| ==> init[j] == names[j];
      SelectAllWidth(row, h, init);
      MatchingCount(row, h, names[|names| - 1]);
    }
  }

  /** A selected name that two header columns share gives two cells, so the selection is wider than the names. */
  lemma {:induction false} SelectAllWider(row: seq<Cell>, h: seq<string>, names: seq<string>, j: nat)
    requires |row| == |h|
    requires forall i :: 0 <= i < |names| ==> names[i] in h
    requires j < |names| && Count(h, names[j]) > 1
    ensures |SelectAll(row, h, names)| > |names|
  {
    var init := names[..|names| - 1];
    assert forall i :: 0 <= i < |init| ==> init[i] == names[i];
    MatchingCount(row, h, names[|names| - 1]);
    if j == |names| - 1 {
      SelectAllWidth(row, h, init);
    } else {
      SelectAllWider(row, h, init, j);
    }
  }

  /** The accepted branch as written: dates converted, then `df[names]` for every row. */
  function ConvertAsWritten(src: seq<seq<Cell>>, h: seq<string>, toIso: Cell -> Option<Cell>): (r: Option<seq<seq<Cell>>>)
    requires HasAll(h) && forall k :: 0 <= k < |src| ==> |src[k]| == |h|
    ensures r.None? <==> !DatesConvert(src, h, toIso)
    ensures r.Some? ==> |r.value| == |src|
  {
    match ReformatDates(src, IndexOf(h, DateColumn), toIso)
    case None => None
    case Some(rows) => Some(seq(|rows|, k requires 0 <= k < |rows| => SelectAll(rows[k], h, Required)))
  }

  function ImportAsWritten(b: Batch, toIso: Cell -> Option<Cell>): (r: Result<seq<seq<Cell>>, ImportError>)
    requires Rectangular(b)
    ensures !HasAll(StripAll(b.header)) <==> r == Failure(MissingColumns)
    ensures var h := StripAll(b.header);
      r.Success? <==> HasAll(h) && Count(h, DateColumn) == 1 && DatesConvert(b.rows, h, toIso)
    ensures r.Success? ==> |r.value| == |b.rows|
  {
    var h := StripAll(b.header);
    if !HasAll(h) then Failure(MissingColumns)
    else if Count(h, DateColumn) > 1 then Failure(ProcessingError)
    else
      match ConvertAsWritten(b.rows, h, toIso)
      case None => Failure(ProcessingError)
      case Some(out) => Success(out)
  }

  /** Names that each label one column select one cell apiece, the cell of that column, in the order of the names. */
  lemma {:induction false} SelectAllSingles(row: seq<Cell>, h: seq<string>, names: seq<string>)
    requires |row| == |h|
    requires forall j :: 0 <= j < |names| ==> names[j] in h && Count(h, names[j]) == 1
    ensures |SelectAll(row, h, names)| == |names|
    ensures forall j :: 0 <= j < |names| ==> SelectAll(row, h, names)[j] == row[IndexOf(h, names[j])]
  {
    if |names| > 0 {
      var init := names[..|names| - 1];
      var last := names[|names| - 1];
      assert forall j :: 0 <= j < |init| ==> init[j] == names[j];
      SelectAllSingles(row, h, init);
      MatchingSingle(row, h, last);
      var s0 := SelectAll(row, h, init);
      var all := SelectAll(row, h, names);
      assert all == s0 + [row[IndexOf(h, last)]];
      forall j | 0 <= j < |names|
        ensures all[j] == row[IndexOf(h, names[j])]
      {
        if j < |init| {
          assert all[j] == s0[j] && init[j] == names[j];
        } else {
          assert all[j] == row[IndexOf(h, last)] && last == names[j];
        }
      }
    }
  }

  /** A name counted twice occupies two positions. */
  lemma {:induction false} CountTwice(h: seq<string>, c: string) returns (i: nat, i': nat)
    requires Count(h, c) > 1
    ensures i < i' < |h| && h[i] == c && h[i'] == c
  {
    var h' := h[..|h| - 1];
    assert forall x :: 0 <= x < |h'| ==> h'[x] == h[x];
    if h[|h| - 1] == c {
      i, i' := IndexOf(h', c), |h| - 1;
    } else {
      i, i' := CountTwice(h', c);
    }
  }

  /** When no required name repeats, every required name labels exactly one column. */
  lemma UniqueCountsOnce(h: seq<string>, j: nat)
    requires HasAll(h) && UniqueRequired(h) && j < |Required|
    ensures Count(h, Required[j]) == 1
  {
    if Count(h, Required[j]) > 1 {
      var i, i' := CountTwice(h, Required[j]);
    }
  }

  /** When no required name repeats, `df[names]` is the projection onto the six required columns. */
  lemma SelectAllProjects(row: seq<Cell>, h: seq<string>)
    requires |row| == |h| && HasAll(h) && UniqueRequired(h)
    ensures SelectAll(row, h, Required) == Project(row, h)
  {
    forall j | 0 <= j < |Required|
      ensures Required[j] in h && Count(h, Required[j]) == 1
    {
      UniqueCountsOnce(h, j);
    }
    SelectAllSingles(row, h, Required);
  }

  /** When no required name repeats, the conversion as written agrees with the corrected one. */
  lemma ConvertAgrees(src: seq<seq<Cell>>, h: seq<string>, toIso: Cell -> Option<Cell>)
    requires HasAll(h) && forall k :: 0 <= k < |src| ==> |src[k]| == |h|
    requires UniqueRequired(h)
    ensures ConvertAsWritten(src, h, toIso) == Convert(src, h, toIso)
  {
    match ReformatDates(src, IndexOf(h, DateColumn), toIso)
    case None =>
    case Some(rows) =>
      forall k | 0 <= k < |rows|
        ensures SelectAll(rows[k], h, Required) == Project(rows[k], h)
      {
        SelectAllProjects(rows[k], h);
      }
      assert seq(|rows|, k requires 0 <= k < |rows| => SelectAll(rows[k], h, Required)) == ProjectRows(rows, h);
      ExpectedDistinct();
  }

  /**
   * Outside the repeated-name case the import as written and the corrected
   * import give the same result on every batch.
   */
  lemma AsWrittenAgrees(b: Batch, toIso: Cell -> Option<Cell>)
    requires Rectangular(b) && UniqueRequired(StripAll(b.header))
    ensures ImportAsWritten(b, toIso) == Import(b, toIso)
  {
    var h := StripAll(b.header);
    if HasAll(h) {
      UniqueCountsOnce(h, 0);
      ConvertAgrees(b.rows, h, toIso);
    }
  }

  /**
   * The ledger after an upload as the code is written: whatever the
   * as-written import selects is appended, wider rows included.
   */
  function ImportIntoAsWritten(ledger: seq<seq<Cell>>, b: Batch, toIso: Cell -> Option<Cell>): (r: seq<seq<Cell>>)
    requires Rectangular(b)
    ensures |ledger| <= |r| && r[..|ledger|] == ledger
    ensures ImportAsWritten(b, toIso).Success? ==> r[|ledger|..] == ImportAsWritten(b, toIso).value
    ensures ImportAsWritten(b, toIso).Failure? ==> r == ledger
  {
    match ImportAsWritten(b, toIso)
    case Success(rows) => ledger + rows
    case Failure(_) => ledger
  }

  /** Without a repeated required name both uploads leave the same ledger. */
  lemma ImportIntoAgrees(ledger: seq<seq<Cell>>, b: Batch, toIso: Cell -> Option<Cell>)
    requires Rectangular(b) && UniqueRequired(StripAll(b.header))
    ensures ImportIntoAsWritten(ledger, b, toIso) == ImportInto(ledger, b, toIso)
  {
    AsWrittenAgrees(b, toIso);
  }

  lemma ConvertAsWrittenWidth(src: seq<seq<Cell>>, h: seq<string>, toIso: Cell -> Option<Cell>, j: nat)
    requires HasAll(h) && forall k :: 0 <= k < |src| ==> |src[k]| == |h|
    requires ConvertAsWritten(src, h, toIso).Some?
    requires j < |Required| && Count(h, Required[j]) > 1
    ensures forall k :: 0 <= k < |src| ==> |ConvertAsWritten(src, h, toIso).value[k]| > |Required|
  {
    var rows := ReformatDates(src, IndexOf(h, DateColumn), toIso).value;
    forall k | 0 <= k < |src|
      ensures |ConvertAsWritten(src, h, toIso).value[k]| > |Required|
    {
      assert ConvertAsWritten(src, h, toIso).value[k] == SelectAll(rows[k], h, Required);
      SelectAllWider(rows[k], h, Required, j);
    }
  }

  /**
   * As written, a required name that two stripped headers share makes every
   * imported row wider than the six ledger columns.
   */
  lemma SharedNameWidensRows(b: Batch, toIso: Cell -> Option<Cell>, j: nat)
    requires Rectangular(b) && ImportAsWritten(b, toIso).Success?
    requires j < |Required| && Count(StripAll(b.header), Required[j]) > 1
    ensures forall k :: 0 <= k < |b.rows| ==> |ImportAsWritten(b, toIso).value[k]| > |Required|
  {
    var h := StripAll(b.header);
    assert ImportAsWritten(b, toIso).value == ConvertAsWritten(b.rows, h, toIso).value;
    ConvertAsWrittenWidth(b.rows, h, toIso, j);
  }

  lemma {:induction false} CountDistinct(h: seq<string>, c: string)
    requires Distinct(h)
    ensures Count(h, c) == if c in h then 1 else 0
  {
    if |h| > 0 {
      var init := h[..|h| - 1];
      assert forall x :: 0 <= x < |init| ==> init[x] == h[x];
      CountDistinct(init, c);
    }
  }

  lemma CountAppend(h: seq<string>, x: string, c: string)
    ensures Count(h + [x], c) == Count(h, c) + if x == c then 1 else 0
  {
    assert (h + [x])[..|h|] == h;
  }

  lemma StripExpectedName(i: nat)
    requires i < |Expected|
    ensures Strip(Expected[i]) == Expected[i]
  {
    assert Expected[i] == "" + Expected[i] + "";
    StripPadded("", Expected[i], "");
  }

  /** Stripped, the header `Expected + [" Monto"]` is the six names followed by "Monto" again. */
  lemma StripPaddedHeader(i: nat)
    requires i <= |Expected|
    ensures StripAll(Expected + [" Monto"])[i] == if i < |Expected| then Expected[i] else "Monto"
  {
    if i < |Expected| {
      assert (Expected + [" Monto"])[i] == Expected[i];
      StripExpectedName(i);
    } else {
      assert (Expected + [" Monto"])[i] == " " + "Monto" + "";
      StripPadded(" ", "Monto", "");
    }
  }

  /** A header that names each required column once in order, and then "Monto" once more. */
  lemma {:induction false} MontoTwiceCounts(h: seq<string>)
    requires |h| == |Expected| + 1 && h[|Expected|] == "Monto"
    requires forall i :: 0 <= i < |Expected| ==> h[i] == Expected[i]
    ensures HasAll(h) && Count(h, Required[4]) == 2 && Count(h, DateColumn) == 1
    ensures !UniqueRequired(h)
  {
    assert HasAll(h) by {
      forall j | 0 <= j < |Required|
        ensures Required[j] in h
      {
        assert h[j] == Required[j];
      }
    }
    var front := h[..|Expected|];
    assert h == front + ["Monto"];
    ExpectedDistinct();
    assert Distinct(front);
    assert front[4] == "Monto";
    assert front[0] == DateColumn;
    CountDistinct(front, "Monto");
    CountDistinct(front, DateColumn);
    CountAppend(front, "Monto", "Monto");
    CountAppend(front, "Monto", DateColumn);
    assert h[4] == h[|Expected|] && h[4] in Required;
  }

  lemma StrippedPaddedHeader()
    ensures var h := StripAll(Expected + [" Monto"]);
      && |h| == |Expected| + 1 && h[|Expected|] == "Monto"
      && forall i :: 0 <= i < |Expected| ==> h[i] == Expected[i]
  {
    forall i | 0 <= i <= |Expected|
      ensures StripAll(Expected + [" Monto"])[i] == if i < |Expected| then Expected[i] else "Monto"
    {
      StripPaddedHeader(i);
    }
  }

  /** The corrected import refuses a header that names a required column twice. */
  lemma DuplicateRefused(b: Batch, toIso: Cell -> Option<Cell>)
    requires Rectangular(b)
    requires HasAll(StripAll(b.header)) && !UniqueRequired(StripAll(b.header))
    ensures Import(b, toIso) == Failure(DuplicateColumns(StripAll(b.header)))
  {
  }

  /**
   * Any upload whose header is the six names followed by " Monto", with
   * every date converting: as written it is accepted with more than six cells per row;
   * the corrected import refuses it.
   */
  lemma PaddedDuplicateExample(b: Batch, toIso: Cell -> Option<Cell>)
    requires b.header == Expected + [" Monto"] && Rectangular(b)
    requires forall k :: 0 <= k < |b.rows| ==> toIso(b.rows[k][0]).Some?
    ensures ImportAsWritten(b, toIso).Success?
    ensures forall k :: 0 <= k < |b.rows| ==> |ImportAsWritten(b, toIso).value[k]| > |Required|
    ensures Import(b, toIso) == Failure(DuplicateColumns(StripAll(b.header)))
  {
    StrippedPaddedHeader();
    var h := StripAll(b.header);
    MontoTwiceCounts(h);
    assert IndexOf(h, DateColumn) == 0;
    assert DatesConvert(b.rows, h, toIso);
    SharedNameWidensRows(b, toIso, 4);
    DuplicateRefused(b, toIso);
  }
}

=== FILE: dashboard.dfy ===
/**
 * The dashboard figures and the fixed-expense total.
 *
 * After the amount column is read as numbers (non-numeric cells count as 0),
 * the balance is the sum of all amounts, income the sum of the positive ones
 * and expenses the sum of the negative ones. The planning view adds up the
 * rows marked fixed whose amount is negative.
 */
module Dashboard {
  import opened Wrappers
  import opened Cells
  import opened Frames

  function Total(xs: seq<int>): int
  {
    if |xs| == 0 then 0 else Total(xs[..|xs| - 1]) + xs[|xs| - 1]
  }

  /** The positive amounts of `xs`, in order. */
  function Positives(xs: seq<int>): seq<int>
  {
    if |xs| == 0 then []
    else Positives(xs[..|xs| - 1]) + (if xs[|xs| - 1] > 0 then [xs[|xs| - 1]] else [])
  }

  /** The negative amounts of `xs`, in order. */
  function Negatives(xs: seq<int>): seq<int>
  {
    if |xs| == 0 then []
    else Negatives(xs[..|xs| - 1]) + (if xs[|xs| - 1] < 0 then [xs[|xs| - 1]] else [])
  }

  lemma TotalAppend(xs: seq<int>, ys: seq<int>)
    ensures Total(xs + ys) == Total(xs) + Total(ys)
  {
    if |ys| > 0 {
      assert (xs + ys)[..|xs + ys| - 1] == xs + ys[..|ys| - 1];
      TotalAppend(xs, ys[..|ys| - 1]);
    } else {
      assert xs + ys == xs;
    }
  }

  /** Income is never negative. */
  lemma {:induction false} PositivesNonNegative(xs: seq<int>)
    ensures Total(Positives(xs)) >= 0
  {
    if |xs| > 0 {
      var init := xs[..|xs| - 1];
      var last := if xs[|xs| - 1] > 0 then [xs[|xs| - 1]] else [];
      PositivesNonNegative(init);
      TotalAppend(Positives(init), last);
    }
  }

  /** Expenses are never positive. */
  lemma {:induction false} NegativesNonPositive(xs: seq<int>)
    ensures Total(Negatives(xs)) <= 0
  {
    if |xs| > 0 {
      var init := xs[..|xs| - 1];
      var last := if xs[|xs| - 1] < 0 then [xs[|xs| - 1]] else [];
      NegativesNonPositive(init);
      TotalAppend(Negatives(init), last);
    }
  }

  /** Every amount is counted as income, as an expense, or (being 0) as neither. */
  lemma {:induction false} SplitBySign(xs: seq<int>)
    ensures Total(xs) == Total(Positives(xs)) + Total(Negatives(xs))
  {
    if |xs| > 0 {
      var init := xs[..|xs| - 1];
      var x := xs[|xs| - 1];
      SplitBySign(init);
      TotalAppend(Positives(init), if x > 0 then [x] else []);
      TotalAppend(Negatives(init), if x < 0 then [x] else []);
    }
  }

  predicate HasAmounts(rows: seq<Record>)
  {
    forall k :: 0 <= k < |rows| ==> "Monto" in rows[k]
  }

  /** The amount column read as numbers: `pd.to_numeric(..., errors='coerce').fillna(0)`. */
  function Amounts(rows: seq<Record>): (r: seq<int>)
    requires HasAmounts(rows)
    ensures |r| == |rows|
    ensures forall i :: 0 <= i < |rows| ==> r[i] == AmountOf(rows[i]["Monto"])
  {
    if |rows| == 0 then []
    else Amounts(rows[..|rows| - 1]) + [AmountOf(rows[|rows| - 1]["Monto"])]
  }

  /** The balance metric: the sum of every amount. */
  function Balance(rows: seq<Record>): (r: int)
    requires HasAmounts(rows)
    ensures r == Income(rows) + Expenses(rows)
    ensures |rows| == 0 ==> r == 0
  {
    SplitBySign(Amounts(rows));
    Total(Amounts(rows))
  }

  /** The income metric: the sum of the positive amounts. */
  function Income(rows: seq<Record>): (r: int)
    requires HasAmounts(rows)
    ensures r >= 0
    ensures |rows| == 0 ==> r == 0
  {
    PositivesNonNegative(Amounts(rows));
    Total(Positives(Amounts(rows)))
  }

  /** The expenses metric: the sum of the negative amounts. */
  function Expenses(rows: seq<Record>): (r: int)
    requires HasAmounts(rows)
    ensures r <= 0
    ensures |rows| == 0 ==> r == 0
  {
    NegativesNonPositive(Amounts(rows));
    Total(Negatives(Amounts(rows)))
  }

  datatype Totals = Totals(balance: int, income: int, expenses: int)

  /**
   * The three dashboard metrics, or None when the dashboard shows the
   * "empty sheet" notice instead (no rows, or no amount column).
   */
  function Summarize(f: Frame): (r: Option<Totals>)
    requires WellFormed(f)
    ensures r.None? <==> |f.rows| == 0 || "Monto" !in f.columns
    ensures r.Some? ==> r.value.income >= 0 && r.value.expenses <= 0
    ensures r.Some? ==> r.value.balance == r.value.income + r.value.expenses
    ensures r.Some? ==> HasAmounts(f.rows) && r.value == Totals(Balance(f.rows), Income(f.rows), Expenses(f.rows))
  {
    if |f.rows| == 0 || "Monto" !in f.columns then None
    else
      assert HasAmounts(f.rows);
      Some(Totals(Balance(f.rows), Income(f.rows), Expenses(f.rows)))
  }

  /**
   * Appending a row moves the balance by its amount, and income or expenses
   * by it according to its sign.
   */
  lemma {:induction false} AppendRowTotals(rows: seq<Record>, r: Record)
    requires HasAmounts(rows) && "Monto" in r
    ensures HasAmounts(rows + [r])
    ensures var a := AmountOf(r["Monto"]);
      && Balance(rows + [r]) == Balance(rows) + a
      && Income(rows + [r]) == Income(rows) + (if a > 0 then a else 0)
      && Expenses(rows + [r]) == Expenses(rows) + (if a < 0 then a else 0)
  {
    var rs := rows + [r];
    var a := AmountOf(r["Monto"]);
    assert rs[..|rs| - 1] == rows;
    var xs := Amounts(rows);
    assert Amounts(rs) == xs + [a];
    assert (xs + [a])[..|xs|] == xs;
    TotalAppend(Positives(xs), if a > 0 then [a] else []);
    TotalAppend(Negatives(xs), if a < 0 then [a] else []);
  }

  /** A row whose amount is not a number changes none of the three metrics. */
  lemma NonNumericRowCountsNowhere(rows: seq<Record>, r: Record)
    requires HasAmounts(rows) && "Monto" in r
    requires r["Monto"].Text? && ParseCents(r["Monto"].s).None?
    ensures HasAmounts(rows + [r])
    ensures Balance(rows + [r]) == Balance(rows)
    ensures Income(rows + [r]) == Income(rows)
    ensures Expenses(rows + [r]) == Expenses(rows)
  {
    AppendRowTotals(rows, r);
  }

  /** The planning-view filter: `Es_Fijo == "SÍ"` and a negative amount. */
  predicate IsFixedExpense(r: Record): (b: bool)
    requires "Monto" in r
    ensures b ==> AmountOf(r["Monto"]) < 0
    ensures "Es_Fijo" !in r || r["Es_Fijo"] != Text(FixedYes) ==> !b
  {
    "Es_Fijo" in r && r["Es_Fijo"] == Text(FixedYes) && AmountOf(r["Monto"]) < 0
  }

  /** The amounts of the rows the fixed filter selects, in order. */
  function FixedAmounts(rows: seq<Record>): (r: seq<int>)
    requires HasAmounts(rows)
    ensures |r| <= |rows|
    ensures forall i :: 0 <= i < |r| ==> r[i] < 0
    ensures |r| == 0 <==> forall k :: 0 <= k < |rows| ==> !IsFixedExpense(rows[k])
  {
    if |rows| == 0 then []
    else
      var init := rows[..|rows| - 1];
      var last := rows[|rows| - 1];
      assert forall k :: 0 <= k < |init| ==> init[k] == rows[k];
      FixedAmounts(init) + (if IsFixedExpense(last) then [AmountOf(last["Monto"])] else [])
  }

  /**
   * The filter keeps the amount of every selected row, and nothing that is
   * not the amount of a selected row.
   */
  lemma {:induction false} FixedAmountsCells(rows: seq<Record>)
    requires HasAmounts(rows)
    ensures forall k :: 0 <= k < |rows| && IsFixedExpense(rows[k]) ==> AmountOf(rows[k]["Monto"]) in FixedAmounts(rows)
    ensures forall m :: 0 <= m < |FixedAmounts(rows)| ==>
      exists k :: 0 <= k < |rows| && IsFixedExpense(rows[k]) && FixedAmounts(rows)[m] == AmountOf(rows[k]["Monto"])
  {
    FixedAmountsKept(rows);
    FixedAmountsFromRows(rows);
    var r := FixedAmounts(rows);
    assert forall m :: 0 <= m < |r| ==>
      exists k :: 0 <= k < |rows| && IsFixedExpense(rows[k]) && r[m] == AmountOf(rows[k]["Monto"]);
  }

  /** Every selected row's amount is among the kept amounts. */
  lemma {:induction false} FixedAmountsKept(rows: seq<Record>)
    requires HasAmounts(rows)
    ensures forall k :: 0 <= k < |rows| && IsFixedExpense(rows[k]) ==> AmountOf(rows[k]["Monto"]) in FixedAmounts(rows)
  {
    if |rows| > 0 {
      var init := rows[..|rows| - 1];
      var last := rows[|rows| - 1];
      assert forall k :: 0 <= k < |init| ==> init[k] == rows[k];
      FixedAmountsKept(init);
      var r := FixedAmounts(rows);
      var r0 := FixedAmounts(init);
      assert r == r0 + (if IsFixedExpense(last) then [AmountOf(last["Monto"])] else []);
      forall k | 0 <= k < |rows| && IsFixedExpense(rows[k])
        ensures AmountOf(rows[k]["Monto"]) in r
      {
        if k < |init| {
          assert AmountOf(init[k]["Monto"]) in r0;
        } else {
          assert r[|r| - 1] == AmountOf(last["Monto"]);
        }
      }
    }
  }

  /** Every kept amount is the amount of some selected row. */
  lemma {:induction false} FixedAmountsFromRows(rows: seq<Record>)
    requires HasAmounts(rows)
    ensures forall m :: 0 <= m < |FixedAmounts(rows)| ==>
      exists k :: 0 <= k < |rows| && IsFixedExpense(rows[k]) && FixedAmounts(rows)[m] == AmountOf(rows[k]["Monto"])
  {
    if |rows| > 0 {
      var init := rows[..|rows| - 1];
      var last := rows[|rows| - 1];
      assert forall k :: 0 <= k < |init| ==> init[k] == rows[k];
      FixedAmountsFromRows(init);
      var r := FixedAmounts(rows);
      var r0 := FixedAmounts(init);
      assert r == r0 + (if IsFixedExpense(last) then [AmountOf(last["Monto"])] else []);
      forall m | 0 <= m < |r|
        ensures exists k :: 0 <= k < |rows| && IsFixedExpense(rows[k]) && r[m] == AmountOf(rows[k]["Monto"])
      {
        if m < |r0| {
          assert r[m] == r0[m];
          var k :| 0 <= k < |init| && IsFixedExpense(init[k]) && r0[m] == AmountOf(init[k]["Monto"]);
          assert rows[k] == init[k];
        } else {
          assert IsFixedExpense(rows[|rows| - 1]);
        }
      }
    } else {
      assert |FixedAmounts(rows)| == 0;
    }
  }

  /** A single row keeps its amount exactly when the filter selects it. */
  lemma FixedAmountsSingle(r: Record)
    requires "Monto" in r
    ensures HasAmounts([r])
    ensures FixedAmounts([r]) == (if IsFixedExpense(r) then [AmountOf(r["Monto"])] else [])
  {
    assert [r][..0] == [];
  }

  /**
   * Filtering joined tables keeps the first table's amounts followed by the
   * second's; with FixedAmountsSingle this fixes the result row by row, so
   * each selected row contributes its amount exactly once.
   */
  lemma {:induction false} FixedAmountsAppend(a: seq<Record>, b: seq<Record>)
    requires HasAmounts(a) && HasAmounts(b)
    ensures HasAmounts(a + b)
    ensures FixedAmounts(a + b) == FixedAmounts(a) + FixedAmounts(b)
  {
    HasAmountsAppend(a, b);
    if |b| == 0 {
      assert a + b == a;
    } else {
      var init := b[..|b| - 1];
      var last := b[|b| - 1];
      assert b == init + [last];
      HasAmountsAppend(init, [last]);
      FixedAmountsAppend(a, init);
      var tail := if IsFixedExpense(last) then [AmountOf(last["Monto"])] else [];
      assert (a + b)[..|a + b| - 1] == a + init;
      calc {
        FixedAmounts(a + b);
        FixedAmounts(a + init) + tail;
        FixedAmounts(a) + FixedAmounts(init) + tail;
        FixedAmounts(a) + (FixedAmounts(init) + tail);
        FixedAmounts(a) + FixedAmounts(b);
      }
    }
  }

  /** Joining two tables that both carry amounts gives a table that carries amounts. */
  lemma HasAmountsAppend(a: seq<Record>, b: seq<Record>)
    requires HasAmounts(a) && HasAmounts(b)
    ensures HasAmounts(a + b)
  {
    forall k | 0 <= k < |a + b|
      ensures "Monto" in (a + b)[k]
    {
      if k >= |a| {
        assert (a + b)[k] == b[k - |a|];
      }
    }
  }

  /** The planning view's total: the sum of the amounts the fixed filter selects. */
  function FixedTotal(rows: seq<Record>): (r: int)
    requires HasAmounts(rows)
    ensures r <= 0
    ensures r < 0 <==> exists k :: 0 <= k < |rows| && IsFixedExpense(rows[k])
  {
    NegativeTotal(FixedAmounts(rows));
    Total(FixedAmounts(rows))
  }

  lemma {:induction false} NegativeTotal(xs: seq<int>)
    requires forall i :: 0 <= i < |xs| ==> xs[i] < 0
    ensures Total(xs) <= 0
    ensures |xs| > 0 ==> Total(xs) < 0
  {
    if |xs| > 0 {
      NegativeTotal(xs[..|xs| - 1]);
    }
  }

  /** The fixed total lies between all expenses and zero. */
  lemma {:induction false} FixedWithinExpenses(rows: seq<Record>)
    requires HasAmounts(rows)
    ensures Expenses(rows) <= FixedTotal(rows) <= 0
  {
    NegativeTotal(FixedAmounts(rows));
    if |rows| > 0 {
      var init := rows[..|rows| - 1];
      var last := rows[|rows| - 1];
      assert init + [last] == rows;
      FixedWithinExpenses(init);
      AppendRowTotals(init, last);
      var a := AmountOf(last["Monto"]);
      TotalAppend(FixedAmounts(init), if IsFixedExpense(last) then [a] else []);
    }
  }

  /** Appending a row adds its amount to the fixed total exactly when the filter selects it. */
  lemma {:induction false} AppendRowFixedTotal(rows: seq<Record>, r: Record)
    requires HasAmounts(rows) && "Monto" in r
    ensures HasAmounts(rows + [r])
    ensures FixedTotal(rows + [r]) == FixedTotal(rows) + (if IsFixedExpense(r) then AmountOf(r["Monto"]) else 0)
  {
    var rs := rows + [r];
    assert rs[..|rs| - 1] == rows;
    TotalAppend(FixedAmounts(rows), if IsFixedExpense(r) then [AmountOf(r["Monto"])] else []);
  }

  /**
   * The planning view's "fixed expense total" metric, or None when no row is
   * a fixed expense (the view then shows a notice, or nothing for an empty table).
   */
  function FixedSummary(f: Frame): (r: Option<int>)
    requires WellFormed(f) && "Monto" in f.columns
    ensures HasAmounts(f.rows)
    ensures r.None? <==> forall k :: 0 <= k < |f.rows| ==> !IsFixedExpense(f.rows[k])
    ensures r.Some? ==> Expenses(f.rows) <= r.value < 0
    ensures r.Some? ==> r.value == FixedTotal(f.rows)
  {
    assert HasAmounts(f.rows);
    var xs := FixedAmounts(f.rows);
    if |xs| == 0 then None
    else
      NegativeTotal(xs);
      FixedWithinExpenses(f.rows);
      Some(FixedTotal(f.rows))
  }
}

=== FILE: entry.dfy ===
/**
 * Manual entry: the sidebar form's validation, the sign rule and the row
 * `save_entry` appends to the sheet.
 */
module Entry {
  import opened Wrappers
  import opened Cells
  import opened Frames
  import opened Dashboard

  /** The type label that marks an expense. */
  const Expense: string := "Gasto"

  /** The message shown when the amount is not positive. */
  const AmountError: string := "El monto debe ser mayor a 0"

  /**
   * A submitted form. The date arrives already formatted as "%Y-%m-%d"
   * text; the amount is in cents.
   */
  datatype Form = Form(fecha: string, tipo: string, categoria: string, descripcion: string, monto: int, esFijo: bool)

  function Abs(x: int): nat { if x < 0 then -x else x }

  /** The stored amount: negative for an expense, positive for any other label. */
  function SignedAmount(tipo: string, monto: int): (r: int)
    requires monto > 0
    ensures r < 0 <==> tipo == Expense
    ensures r != 0 && Abs(r) == monto
  {
    if tipo == Expense then -monto else monto
  }

  /** The fixed checkbox as sheet text; the fixed filter reads it back. */
  function FlagText(esFijo: bool): (t: string)
    ensures t == FixedYes <==> esFijo
    ensures t == FixedYes || t == FixedNo
  {
    if esFijo then FixedYes else FixedNo
  }

  /**
   * Submitting the form: a non-positive amount is refused with an error and
   * nothing is saved; otherwise the six-value row appended to the sheet.
   */
  function Submit(form: Form): (r: Result<seq<Cell>, string>)
    ensures r.Failure? <==> form.monto <= 0
    ensures r.Failure? ==> r.error == AmountError
    ensures r.Success? ==> |r.value| == |Expected|
    ensures r.Success? ==>
      && r.value[0] == Text(form.fecha)
      && r.value[1] == Text(form.tipo)
      && r.value[2] == Text(form.categoria)
      && r.value[3] == Text(form.descripcion)
      && r.value[5] == Text(FlagText(form.esFijo))
    ensures r.Success? ==>
      && r.value[4].Num?
      && (r.value[4].n < 0 <==> form.tipo == Expense)
      && Abs(r.value[4].n) == form.monto
  {
    if form.monto > 0 then
      var amount := SignedAmount(form.tipo, form.monto);
      Success([Text(form.fecha), Text(form.tipo), Text(form.categoria), Text(form.descripcion),
               Num(amount), Text(FlagText(form.esFijo))])
    else Failure(AmountError)
  }

  /**
   * A saved entry, read back from the sheet, is picked by the fixed filter
   * exactly when it is an expense with the fixed box ticked.
   */
  lemma SavedEntryFixedIff(form: Form)
    requires form.monto > 0
    ensures Submit(form).Success?
    ensures var r := ReadBack(Submit(form).value);
      "Monto" in r && (IsFixedExpense(r) <==> form.esFijo && form.tipo == Expense)
  {
    var row := Submit(form).value;
    var r := ReadBack(row);
    assert r["Monto"] == row[4] && r["Es_Fijo"] == row[5];
  }

  /**
   * The same holds when the sheet hands the amount back as two-decimal text,
   * which the dashboard's numeric conversion reads as the saved number.
   */
  lemma SavedEntryTextFixedIff(form: Form)
    requires form.monto > 0
    ensures Submit(form).Success?
    ensures var r := ReadBackAsText(Submit(form).value);
      "Monto" in r && (IsFixedExpense(r) <==> form.esFijo && form.tipo == Expense)
  {
    var row := Submit(form).value;
    var r := ReadBackAsText(row);
    assert r["Es_Fijo"] == row[5];
  }

  /** Either way of reading the amount back moves the three metrics and the fixed total alike. */
  lemma SavedEntryTextTotals(rows: seq<Record>, form: Form)
    requires HasAmounts(rows) && form.monto > 0
    ensures Submit(form).Success?
    ensures var rn := rows + [ReadBack(Submit(form).value)];
      var rt := rows + [ReadBackAsText(Submit(form).value)];
      && HasAmounts(rn) && HasAmounts(rt)
      && Balance(rt) == Balance(rn) && Income(rt) == Income(rn) && Expenses(rt) == Expenses(rn)
      && FixedTotal(rt) == FixedTotal(rn)
  {
    var row := Submit(form).value;
    var n := ReadBack(row);
    var t := ReadBackAsText(row);
    SavedEntryFixedIff(form);
    SavedEntryTextFixedIff(form);
    assert n["Monto"] == row[4];
    AppendRowTotals(rows, n);
    AppendRowTotals(rows, t);
    AppendRowFixedTotal(rows, n);
    AppendRowFixedTotal(rows, t);
  }

  /**
   * Text with a decimal comma is not a number to the dashboard: a ticked
   * expense handed back as `-12,50` counts as 0 and is not a fixed expense.
   */
  lemma CommaAmountIgnored()
    ensures AmountOf(Text("-12,50")) == 0
    ensures !IsFixedExpense(map["Monto" := Text("-12,50"), "Es_Fijo" := Text(FixedYes)])
  {
    assert "-12,50"[3] == ',';
  }

  /**
   * Saving an entry moves the fixed total by the stored amount when it is a
   * fixed expense and leaves it alone otherwise.
   */
  lemma SavedEntryFixedTotal(rows: seq<Record>, form: Form)
    requires HasAmounts(rows) && form.monto > 0
    ensures Submit(form).Success?
    ensures var rs := rows + [ReadBack(Submit(form).value)];
      && HasAmounts(rs)
      && FixedTotal(rs) == FixedTotal(rows) + (if form.esFijo && form.tipo == Expense then -form.monto else 0)
  {
    SavedEntryFixedIff(form);
    var r := ReadBack(Submit(form).value);
    AppendRowFixedTotal(rows, r);
    assert r["Monto"] == Submit(form).value[4];
  }

  /** A saved entry adds its amount to income or to expenses according to its type label. */
  lemma SavedEntryTotals(rows: seq<Record>, form: Form)
    requires HasAmounts(rows) && form.monto > 0
    ensures Submit(form).Success?
    ensures var rs := rows + [ReadBack(Submit(form).value)];
      && HasAmounts(rs)
      && Income(rs) == Income(rows) + (if form.tipo == Expense then 0 else form.monto)
      && Expenses(rs) == Expenses(rows) - (if form.tipo == Expense then form.monto else 0)
  {
    var r := ReadBack(Submit(form).value);
    assert r["Monto"] == Submit(form).value[4];
    AppendRowTotals(rows, r);
  }
}

=== FILE: frames.dfy ===
/**
 * The ledger as a table, and `load_data`'s schema completion.
 *
 * A frame is a list of column names and one record per row that maps each
 * column name to its cell. The ledger's six columns are fixed by the
 * application.
 */
module Frames {
  import opened Cells

  /** The ledger's columns, in sheet order. */
  const Expected: seq<string> := ["Fecha", "Tipo", "Categoria", "Descripcion", "Monto", "Es_Fijo"]

  /** The text the application stores for a fixed entry ("SÍ"). */
  const FixedYes: string := "S\U{CD}"

  /** The text the application stores for an entry that is not fixed. */
  const FixedNo: string := "NO"

  type Record = map<string, Cell>

  datatype Frame = Frame(columns: seq<string>, rows: seq<Record>)

  predicate Distinct(xs: seq<string>)
  {
    forall i, j :: 0 <= i < j < |xs| ==> xs[i] != xs[j]
  }

  /** The six column names differ from one another. */
  lemma ExpectedDistinct()
    ensures Distinct(Expected)
  {
    assert Expected[0][0] == 'F' && Expected[1][0] == 'T' && Expected[2][0] == 'C';
    assert Expected[3][0] == 'D' && Expected[4][0] == 'M' && Expected[5][0] == 'E';
  }

  /** Column names are distinct and every row has exactly the frame's columns. */
  ghost predicate WellFormed(f: Frame)
  {
    && Distinct(f.columns)
    && forall k, c :: 0 <= k < |f.rows| ==> (c in f.rows[k] <==> c in f.columns)
  }

  /** `df[col] = ""`: a new last column holding empty text in every row. */
  function AddColumn(f: Frame, col: string): (g: Frame)
    requires WellFormed(f) && col !in f.columns
    ensures WellFormed(g)
    ensures g.columns == f.columns + [col]
    ensures |g.rows| == |f.rows|
    ensures forall k, c :: 0 <= k < |f.rows| && c in f.columns ==> c in g.rows[k] && g.rows[k][c] == f.rows[k][c]
    ensures forall k :: 0 <= k < |g.rows| ==> col in g.rows[k] && g.rows[k][col] == Text("")
  {
    Frame(f.columns + [col], seq(|f.rows|, k requires 0 <= k < |f.rows| => f.rows[k][col := Text("")]))
  }

  /**
   * `g` is `f` with columns appended: `f`'s columns come first, the new ones
   * are expected columns, every old cell is kept and every new cell is empty text.
   */
  ghost predicate Extends(f: Frame, g: Frame)
  {
    && WellFormed(f)
    && |f.columns| <= |g.columns| && g.columns[..|f.columns|] == f.columns
    && (forall c :: c in g.columns ==> c in f.columns || c in Expected)
    && |g.rows| == |f.rows|
    && (forall k, c :: 0 <= k < |f.rows| && c in f.columns ==> c in g.rows[k] && g.rows[k][c] == f.rows[k][c])
    && (forall k, c :: 0 <= k < |g.rows| && c in g.columns && c !in f.columns ==> c in g.rows[k] && g.rows[k][c] == Text(""))
  }

  lemma AddExpectedExtends(f: Frame, g: Frame, j: nat)
    requires WellFormed(g) && Extends(f, g)
    requires j < |Expected| && Expected[j] !in g.columns
    ensures Extends(f, AddColumn(g, Expected[j]))
  {
    var h := AddColumn(g, Expected[j]);
    assert h.columns[..|f.columns|] == g.columns[..|f.columns|];
  }

  /**
   * `load_data`: every expected column missing from the loaded frame is
   * added, filled with empty text; nothing already there changes.
   */
  method LoadData(f: Frame) returns (g: Frame)
    requires WellFormed(f)
    ensures WellFormed(g)
    ensures forall j :: 0 <= j < |Expected| ==> Expected[j] in g.columns
    ensures Extends(f, g)
  {
    g := f;
    for j := 0 to |Expected|
      invariant WellFormed(g) && Extends(f, g)
      invariant forall i :: 0 <= i < j ==> Expected[i] in g.columns
    {
      if Expected[j] !in g.columns {
        AddExpectedExtends(f, g, j);
        g := AddColumn(g, Expected[j]);
      }
    }
  }

  /**
   * The record the sheet holds for an appended row: the sheet's header is the
   * six expected columns, so the i-th value lands under the i-th column.
   */
  function ReadBack(row: seq<Cell>): (r: Record)
    requires |row| == |Expected|
    ensures forall c :: c in r <==> c in Expected
    ensures forall i :: 0 <= i < |Expected| ==> r[Expected[i]] == row[i]
  {
    map["Fecha" := row[0], "Tipo" := row[1], "Categoria" := row[2],
        "Descripcion" := row[3], "Monto" := row[4], "Es_Fijo" := row[5]]
  }

  /**
   * The record when the sheet hands a saved amount back as text written with
   * two decimals instead of as a number. It reads as the same amount.
   */
  function ReadBackAsText(row: seq<Cell>): (r: Record)
    requires |row| == |Expected| && row[4].Num?
    ensures forall c :: c in r <==> c in Expected
    ensures forall i :: 0 <= i < |Expected| && i != 4 ==> r[Expected[i]] == row[i]
    ensures r["Monto"].Text? && AmountOf(r["Monto"]) == row[4].n
  {
    var text := Text(FormatCents(row[4].n));
    FormatParseRoundTrip(row[4].n);
    assert AmountOf(text) == row[4].n;
    var r := ReadBack(row[4 := text]);
    assert r["Monto"] == r[Expected[4]];
    r
  }
}

=== FILE: strings.dfy ===
/**
 * Whitespace stripping of column names, as Python's `str.strip()` does it
 * (applied to CSV headers with `df.columns.str.strip()`).
 */
module Strings {

  /** The characters Python's `str.isspace()` accepts. */
  predicate IsSpace(c: char)
  {
    || c == ' '
    || '\t' <= c <= '\r'
    || '\U{1C}' <= c <= '\U{1F}'
    || c == '\U{85}' || c == '\U{A0}' || c == '\U{1680}'
    || '\U{2000}' <= c <= '\U{200A}'
    || c == '\U{2028}' || c == '\U{2029}' || c == '\U{202F}' || c == '\U{205F}' || c == '\U{3000}'
  }

  predicate AllSpace(s: string) { forall i :: 0 <= i < |s| ==> IsSpace(s[i]) }

  /** Neither end of `s` is whitespace. */
  predicate NoEdgeSpace(s: string)
  {
    |s| == 0 || (!IsSpace(s[0]) && !IsSpace(s[|s| - 1]))
  }

  /** How many characters of whitespace `s` starts with. */
  function LeadingSpaces(s: string): (n: nat)
    ensures n <= |s|
    ensures forall i :: 0 <= i < n ==> IsSpace(s[i])
    ensures n == |s| || !IsSpace(s[n])
  {
    if |s| > 0 && IsSpace(s[0]) then
      var n := 1 + LeadingSpaces(s[1..]);
      assert forall i :: 1 <= i < n ==> s[i] == s[1..][i - 1];
      n
    else 0
  }

  /** How many characters of whitespace `s` ends with. */
  function TrailingSpaces(s: string): (n: nat)
    ensures n <= |s|
    ensures forall i :: |s| - n <= i < |s| ==> IsSpace(s[i])
    ensures n == |s| || !IsSpace(s[|s| - 1 - n])
  {
    if |s| > 0 && IsSpace(s[|s| - 1]) then
      var n := 1 + TrailingSpaces(s[..|s| - 1]);
      assert forall i :: |s| - n <= i < |s| - 1 ==> s[i] == s[..|s| - 1][i];
      n
    else 0
  }

  /** Drops the whitespace at both ends; what is left has no whitespace at either end. */
  function Strip(s: string): (r: string)
    ensures NoEdgeSpace(r) && |r| <= |s|
  {
    var a := LeadingSpaces(s);
    var b := TrailingSpaces(s[a..]);
    assert b < |s| - a ==> s[a..][|s| - a - 1 - b] == s[|s| - 1 - b];
    s[a..|s| - b]
  }

  /** Stripping removes nothing but whitespace: the result is a slice of `s` with only whitespace around it. */
  lemma StripSlice(s: string)
    ensures var r := Strip(s);
      exists i :: 0 <= i <= |s| - |r| && r == s[i..][..|r|]
        && (forall j :: 0 <= j < i ==> IsSpace(s[j]))
        && (forall j :: i + |r| <= j < |s| ==> IsSpace(s[j]))
  {
    var a := LeadingSpaces(s);
    var b := TrailingSpaces(s[a..]);
    assert Strip(s) == s[a..][..|s| - b - a];
    TailIsSpace(s, a, b);
  }

  lemma TailIsSpace(s: string, a: nat, b: nat)
    requires a <= |s| && b == TrailingSpaces(s[a..])
    ensures forall j :: |s| - b <= j < |s| ==> IsSpace(s[j])
  {
    var t := s[a..];
    assert forall j :: a <= j < |s| ==> s[j] == t[j - a];
  }

  /** Stripping twice is stripping once. */
  lemma StripIdempotent(s: string)
    ensures Strip(Strip(s)) == Strip(s)
  {
    var r := Strip(s);
    assert LeadingSpaces(r) == 0;
    assert r[0..] == r;
    assert TrailingSpaces(r) == 0;
  }

  lemma {:induction false} LeadingPadded(p: string, t: string)
    requires AllSpace(p)
    requires |t| == 0 || !IsSpace(t[0])
    ensures LeadingSpaces(p + t) == |p|
  {
    if |p| > 0 {
      assert (p + t)[1..] == p[1..] + t;
      LeadingPadded(p[1..], t);
    }
  }

  lemma {:induction false} TrailingPadded(t: string, q: string)
    requires AllSpace(q)
    requires |t| == 0 || !IsSpace(t[|t| - 1])
    ensures TrailingSpaces(t + q) == |q|
  {
    if |q| > 0 {
      assert (t + q)[..|t + q| - 1] == t + q[..|q| - 1];
      TrailingPadded(t, q[..|q| - 1]);
    }
  }

  /**
   * A name with whitespace around it strips to the name: a header written
   * " Monto " matches the column "Monto".
   */
  lemma {:induction false} StripPadded(p: string, c: string, q: string)
    requires AllSpace(p) && AllSpace(q)
    requires NoEdgeSpace(c)
    ensures Strip(p + c + q) == c
  {
    var s := p + c + q;
    if |c| == 0 {
      assert s == (p + q) + "";
      LeadingPadded(p + q, "");
      assert s[|s|..] == "";
    } else {
      assert s == p + (c + q);
      LeadingPadded(p, c + q);
      assert s[|p|..] == c + q;
      TrailingPadded(c, q);
      assert s[|p|..|s| - |q|] == c;
    }
  }

  lemma StripMontoExample()
    ensures Strip(" Monto ") == "Monto"
  {
    assert " Monto " == " " + "Monto" + " ";
    StripPadded(" ", "Monto", " ");
  }
}

=== FILE: wrappers.dfy ===
/** Optional values and results with an error, used across the ledger model. */
module Wrappers {

  /** An optional value. */
  datatype Option<+T> = None | Some(value: T)

  /** Either a value or the error that the application reports instead. */
  datatype Result<+T, +E> = Success(value: T) | Failure(error: E)
}
